=== FILE: README.md ===
# wazo-microsoft: directory search and token lifecycle, in Dafny

This project models the two pieces of deterministic logic in the Wazo
Microsoft plugins:

- the **Office 365 directory source** (`wazo_microsoft/dird/plugin.py`):
  given the contacts the Graph endpoint returned and the caller's session
  token, `search` keeps the contacts whose searched columns contain the term
  (case-insensitively) and sorts them stably by `givenName`; `list` keeps the
  contacts whose `id` is requested, in fetch order; `first_match` answers
  nothing;
- the **Microsoft token lifecycle** of the auth plugin
  (`wazo_microsoft/auth/http.py`, `helpers.py`, `websocket_oauth2.py`):
  starting an authorization (body validation, the scope update on the
  resource's session, the listener on `host + '/ws/' + state`), completing it when the code arrives
  (close the socket, exchange the code, store `access_token`,
  `refresh_token`, `token_expiration`), reading the token (refresh when
  fewer than 30 seconds remain, writing the store exactly once) and deleting
  it.

Time is an integer number of seconds passed in as `now`. The provider's
answers (`fetch_token`, `refresh_token`), the authorization URL with its
random state, the fetched contacts and `get_first_email` are inputs. The
host's external-auth storage is an abstract map from (user, auth type) to a
JSON record (`ExternalAuth.Store`); each completion step returns the effects
it performs, in order (`WebSocketOAuth2.Effect`), so that "closed before the
exchange" and "written once" are statements about the returned list.

Files: `wrappers.dfy` (Option, Result), `text.dfy` (lower-casing, substring
search, Python's string order), `seqs.dfy` (filtering), `sorting.dfy`
(stable sort by a string key), `directory.dfy` (the directory source),
`helpers.dfy`, `external_auth.dfy` (store and token-answer shapes),
`websocket.dfy`, `auth.dfy` (the HTTP resource), `scenarios.dfy`
(start → complete → read, end to end).

Behaviour of the code worth knowing:

- a refresh changes only `access_token` and `token_expiration`; a refresh
  token or scope the provider returns on refresh is discarded, not stored;
- `post` writes nothing to the store; it only updates the session scope and
  starts the listener;
- a stored record without `token_expiration` is treated as expired and
  refreshed; the record written on completion holds no `scope`, so a read
  from a plain-map store answers a null scope;
- `first_match` always answers nothing; it does not consult
  `first_matched_columns`;
- the sort key is always `givenName`;
- the auth plugin registers the resource so that every request gets a new
  instance (wazo_microsoft/auth/plugin.py:13-17), with its own OAuth2
  session built from the configured scope and its own listener; the model
  of one request is `MicrosoftAuth.PostOnFreshInstance`. The resource
  object itself keeps a requested scope and the listener's user across
  calls; `MicrosoftAuth.Replay` and the shared-listener members describe
  one instance serving several requests, which matters only if an
  instance is reused (see Findings).

## Model

| member | source | states |
|---|---|---|
| `Directory.UpdateContactFields` | wazo_microsoft/dird/plugin.py:83-88 | every fetched contact is updated in place: same count, same order, each one as `UpdateContact` describes |
| `Directory.UpdateContact` | wazo_microsoft/dird/plugin.py:83-88 | a missing `givenName` becomes '', `email` is set from the defaulted contact, every other column is kept as fetched |
| `Directory.MatchFn` | wazo_microsoft/dird/plugin.py:49-54 | a contact matches iff some searched column's lower-cased text (missing or empty reads as '') contains the lower-cased term |
| `Text.Contains` | wazo_microsoft/dird/plugin.py:52 | substring test: true iff the needle occurs at some offset of the text, the empty needle everywhere |
| `Directory.Search` | wazo_microsoft/dird/plugin.py:37-59 | no session token gives []; otherwise a contact is in the result iff it was fetched and the term occurs in one of its searched columns, ignoring case; the result is sorted by `givenName` and holds each matching contact exactly as often as it was fetched |
| `Directory.SearchIsStableSortOfMatches` | wazo_microsoft/dird/plugin.py:56-57 | the result is a permutation of the matching contacts, sorted, and contacts sharing a `givenName` keep their fetch order |
| `Sorting.SortBy` | wazo_microsoft/dird/plugin.py:57 | `sorted` by a string key: ordered by Python string comparison, a permutation of the input, stable for equal keys |
| `Directory.SearchBlankNamesFirst` | wazo_microsoft/dird/plugin.py:57 | contacts whose `givenName` is missing (so '') come before every contact with a non-empty one |
| `Directory.SearchWithoutColumns` | wazo_microsoft/dird/plugin.py:33-35 | with no searched columns configured, every search answers [] |
| `Directory.SearchCaseInvariant` | wazo_microsoft/dird/plugin.py:47-52 | terms that differ only in letter case give the same result |
| `Directory.NoTokenNoResults` | wazo_microsoft/dird/plugin.py:76-79 | without a (non-empty) session token, `search` and `list` answer [] whatever the endpoint would return |
| `Directory.List` | wazo_microsoft/dird/plugin.py:61-71 | no token gives []; a fetched contact without `id` makes the call fail; otherwise exactly the fetched contacts whose `id` is requested, as a subsequence of the fetched ones (fetch order, each kept as often as fetched) |
| `Seqs.FilterIsSubsequence` | wazo_microsoft/dird/plugin.py:69 | a list comprehension with a condition keeps the kept elements in their original order |
| `Directory.FirstMatch` | wazo_microsoft/dird/plugin.py:73-74 | reverse lookup answers nothing, whatever the term |
| `Helpers.TimestampExpiration` | wazo_microsoft/auth/helpers.py:11-13 | the expiry lies exactly `expires_in` seconds after the issue time |
| `Helpers.ExpirationMonotone` | wazo_microsoft/auth/helpers.py:11-13 | a longer lifetime never gives an earlier expiry |
| `Helpers.ExpirationAtZeroLifetime` | wazo_microsoft/auth/helpers.py:11-13 | `expires_in = 0` expires at the issue time |
| `Helpers.LoadPostBody` | wazo_microsoft/auth/helpers.py:16-18 | the body is accepted iff scope is omitted or every item has length 1 to 512; a rejection names exactly the offending positions |
| `Helpers.EmptyScopeItemRejected` | wazo_microsoft/auth/helpers.py:18 | an empty scope item is rejected |
| `Helpers.OverlongScopeItemRejected` | wazo_microsoft/auth/helpers.py:18 | a 513-character scope item is rejected, and only it is reported |
| `Helpers.BoundaryScopeItemsAccepted` | wazo_microsoft/auth/helpers.py:18 | items of length 1 and 512 are accepted |
| `Helpers.OmittedOrEmptyScopeAccepted` | wazo_microsoft/auth/helpers.py:16-18 | an omitted scope and an empty scope list both pass |
| `WebSocketOAuth2.Run` | wazo_microsoft/auth/websocket_oauth2.py:29-36 | `run` records the user on the listener and opens the channel that names the attempt's state |
| `WebSocketOAuth2.ChannelRoundTrip` | wazo_microsoft/auth/websocket_oauth2.py:32-33 | the channel is `host + '/ws/' + state`: the state can be read back from it, and only that channel reads back to that state |
| `WebSocketOAuth2.ChannelsDistinct` | wazo_microsoft/auth/websocket_oauth2.py:32-33 | distinct states listen on distinct channels |
| `WebSocketOAuth2.FirstTokenRecord` | wazo_microsoft/auth/websocket_oauth2.py:55-60 | the first record has exactly `access_token`, `refresh_token`, `token_expiration` (no scope), copied from the answer with expiry `now + expires_in`; an answer without refresh token fails |
| `WebSocketOAuth2.CreateFirstToken` | wazo_microsoft/auth/websocket_oauth2.py:53-62 | the code is exchanged first; the store is written once, under (user, auth type), iff the exchange answered with a refresh token |
| `WebSocketOAuth2.Complete` | wazo_microsoft/auth/websocket_oauth2.py:40-44 | unparsable JSON does nothing; for a JSON object the socket is closed, then its `code` is exchanged, and on success the only store write is the third effect, the first-token record under (user, auth type); any other JSON value closes the socket and fails without an exchange; a failed completion writes nothing |
| `WebSocketOAuth2.OnMessage` | wazo_microsoft/auth/websocket_oauth2.py:40-44 | on the shared listener, the first-token record is written once, under the user of the latest `run` and the configured auth type; a failed completion writes nothing |
| `WebSocketOAuth2.SharedListenerCrossWires` | wazo_microsoft/auth/websocket_oauth2.py:29-30 | as written, on one listener object: with two overlapping attempts, the first user's code is stored under the second user |
| `WebSocketOAuth2.RunAttempt` | wazo_microsoft/auth/websocket_oauth2.py:29-30 | corrected: an attempt records its user under its own state and leaves other attempts' users alone |
| `WebSocketOAuth2.OnMessageFor` | wazo_microsoft/auth/websocket_oauth2.py:40-44 | corrected: the first-token record is written once, under the user who started the attempt the message belongs to; a failed completion writes nothing |
| `WebSocketOAuth2.AttemptsDoNotCrossWire` | wazo_microsoft/auth/websocket_oauth2.py:29-44 | corrected: a later attempt never redirects an earlier attempt's store write |
| `WebSocketOAuth2.SingleAttemptAgrees` | wazo_microsoft/auth/websocket_oauth2.py:29-44 | with one attempt in flight, the shared listener and the per-attempt version behave identically |
| `MicrosoftAuth.ApplyScope` | wazo_microsoft/auth/http.py:54-55 | a non-empty requested scope replaces the session scope; an omitted or empty one keeps it |
| `MicrosoftAuth.Post` | wazo_microsoft/auth/http.py:48-66 | an invalid body fails with the offending positions before any state changes; a valid one updates the scope, asks the session for an authorization under the scope now in force, answers its URL with 201 and starts the listener on that attempt's state |
| `MicrosoftAuth.RequestedScopeGovernsUrl` | wazo_microsoft/auth/http.py:54-59 | a scope named in the request already governs that request's authorization URL; without one, the scope in force does |
| `MicrosoftAuth.PostOnFreshInstance` | wazo_microsoft/auth/http.py:29-66 | one request on a new instance: accepted iff the body is valid; the URL is authorized with the requested scope, or the configured one when none is named; the listener holds this request's user |
| `MicrosoftAuth.OmittedScopeUsesConfigured` | wazo_microsoft/auth/http.py:35-59 | on a new instance, a request naming no scope is authorized with the configured scope |
| `MicrosoftAuth.FreshInstancesDoNotCrossWire` | wazo_microsoft/auth/http.py:38-62 | with an instance per request, a second user's attempt does not redirect the first attempt's store write |
| `MicrosoftAuth.Replay` | wazo_microsoft/auth/http.py:48-66 | one instance serving requests in order: nothing accepted changes nothing; the listener keeps host and auth type and holds the user of the last request when it was accepted |
| `MicrosoftAuth.ReplayScopeIsLastRequested` | wazo_microsoft/auth/http.py:54-55 | on one instance, after any sequence of requests the session scope is that of the last accepted request naming a scope, else the initial one |
| `MicrosoftAuth.IsTokenExpired` | wazo_microsoft/auth/http.py:84-87 | a missing expiry is expired; otherwise expired iff fewer than 30 seconds remain before it |
| `MicrosoftAuth.MissingExpirationIsExpired` | wazo_microsoft/auth/http.py:84-86 | a record without expiry is expired |
| `MicrosoftAuth.ExpiryMarginIsStrict` | wazo_microsoft/auth/http.py:87 | expired iff the expiry is less than now + 30; exactly 30 seconds left is still valid |
| `MicrosoftAuth.ExpiredStaysExpired` | wazo_microsoft/auth/http.py:84-87 | an expired token stays expired as time passes |
| `MicrosoftAuth.ShortLivedTokenExpiredAtIssue` | wazo_microsoft/auth/http.py:87 | a token issued with `expires_in` < 30 is already expired at issue, one with `expires_in` >= 30 is not |
| `MicrosoftAuth.ExpirationOf` | wazo_microsoft/auth/http.py:72 | a missing or null expiry reads as none, an integer as itself, anything else cannot be compared |
| `MicrosoftAuth.CreateGetResponse` | wazo_microsoft/auth/http.py:101-107 | the response carries the stored access token, expiry and scope (null when absent); a record without access token fails |
| `MicrosoftAuth.RefreshedRecord` | wazo_microsoft/auth/http.py:94-95 | a refresh sets the new access token and `now + expires_in`, and leaves every other field, `refresh_token` and `scope` included, unchanged |
| `MicrosoftAuth.RefreshToken` | wazo_microsoft/auth/http.py:89-99 | a refresh writes the store exactly once under the user's key and answers from the refreshed record; a failed provider call writes nothing |
| `MicrosoftAuth.Get` | wazo_microsoft/auth/http.py:68-77 | no record is not found; a non-numeric stored expiry fails as not comparable; an unexpired record is answered as stored with no write, or fails on a missing `access_token`; an expired one is refreshed; at most one write, always under the user's key |
| `MicrosoftAuth.RefreshedTokenIsFresh` | wazo_microsoft/auth/http.py:89-99 | right after a refresh with lifetime >= 30 s, a read at the same time returns the same token and writes nothing |
| `MicrosoftAuth.Delete` | wazo_microsoft/auth/http.py:79-82 | removes exactly the user's record and answers 204; a missing record is not found |
| `MicrosoftAuth.DeleteTwiceNotFound` | wazo_microsoft/auth/http.py:79-82 | after a delete, a second delete and a read are both not found |
| `MicrosoftAuth.DeleteLeavesOthers` | wazo_microsoft/auth/http.py:79-82 | deleting one user's record does not change what another user reads |
| `Scenarios.CompletionWritesOnce` | wazo_microsoft/auth/websocket_oauth2.py:40-62 | a completed exchange passes the message's code and writes the first-token record exactly once |
| `Scenarios.CompletedAuthorizationIsReadable` | wazo_microsoft/auth/http.py:68-77 | start, complete, read within the lifetime: the exchanged token and its expiry are returned, nothing is written, the scope is null |
| `Scenarios.ExpiredTokenRefreshedOnce` | wazo_microsoft/auth/http.py:89-99 | start, complete, read after expiry: one write, the new token is returned and the first refresh token is kept |

## Findings

| source | as written | input that shows it | evidently intended | confidence | as-written member | corrected member |
|---|---|---|---|---|---|---|
| wazo_microsoft/auth/websocket_oauth2.py:29-30 | `run` stores the attempt's user on the single listener every attempt shares, and `_on_message` reads it back when a code arrives | on one resource instance serving both requests: alice starts an attempt (state `state-a`), bob starts one before alice's code arrives; alice's code is exchanged and stored under bob | each attempt's code is stored under the user who started that attempt, as the unique per-attempt state suggests | low, not executed (needs one instance to serve two overlapping attempts; the plugin's registration at wazo_microsoft/auth/plugin.py:13-17 normally builds one instance per request, where `MicrosoftAuth.FreshInstancesDoNotCrossWire` shows no cross-wiring) | `WebSocketOAuth2.SharedListenerCrossWires` | `WebSocketOAuth2.OnMessageFor` |

The single-attempt scenarios use the shared listener; `SingleAttemptAgrees`
shows it coincides with the corrected one when attempts do not overlap.

## Left out

- Threads, the websocket event loop and `run_forever`: concurrency and I/O; each attempt is one sequential `Run` followed, maybe, by one message.
- `OAuth2Session`: building the authorization URL, generating the random state, and the `fetch_token` / `refresh_token` network calls; their results are inputs.
- The external-auth store's own semantics (pending versus authorized records, creating twice, updating a missing key): not visible here; the store is a plain map whose update replaces the record.
- `wazo_microsoft/dird/services.py`: the contacts request and the access-token lookup are network calls; the fetched contacts are an input, and a failed lookup or request, which yields no contacts, is the input `[]`.
- `make_result_class` and `format_columns` templating: formatting code outside this model.
- Directory.Search: the lookup arguments are taken to be present and to carry a user; the TypeError Python raises when `args` is left at its default `None`, or lacks `xivo_user_uuid`, is not modelled, since `LookupArgs` always holds a user.
- Directory.List: the same assumption about the lookup arguments as for `Directory.Search`; the TypeError for missing arguments or a missing `xivo_user_uuid` is not modelled. The services module wazo_microsoft/dird/services.py defines no `Office365Service.get_contacts`, which plugin.py:67 calls, so as written `list` raises AttributeError whenever the token lookup succeeds (a user without a Microsoft authorization gets [] earlier, at plugin.py:62-65); the model follows the integration tests (integration_tests/suite/test_dird_microsoft.py:60-80), which expect that call to return the endpoint's contacts, and takes the fetched contacts as an input.
- Directory.UpdateContact: wazo_microsoft/dird/services.py defines no `get_first_email`, which plugin.py:87 calls, so as written `search` and `list` raise AttributeError as soon as a contact is fetched; the model follows the integration tests, which expect the first e-mail address, and takes `firstEmail` as a function parameter.
- MicrosoftAuth.Replay: assumes one resource instance serves every request, so a requested scope carries over to later requests; the registration at wazo_microsoft/auth/plugin.py:13-17 normally builds one instance per request, where the scope does not carry over (`MicrosoftAuth.OmittedScopeUsesConfigured`). The same holds for `MicrosoftAuth.ReplayScopeIsLastRequested`.
- WebSocketOAuth2.SharedListenerCrossWires: assumes one resource instance, and so one listener, serves both attempts; with the per-request instances that plugin.py:13-17 normally builds, attempts do not share `user_uuid` (`MicrosoftAuth.FreshInstancesDoNotCrossWire`).
- Text.Lower: only ASCII letters are lower-cased; Python's full Unicode case mapping is not modelled.
- Directory.ColumnText: column values are strings already rendered with `str()`; a non-string value, or a falsy one such as `None` or `0` that `or ''` would replace, must be supplied as its rendering or as ''.
- Directory.Search: a non-string `givenName`, which makes Python's `sorted` raise, is not modelled, because values are strings.
- Helpers.LoadPostBody: only the scope-item length rule is modelled; a null or non-list scope, non-string items and unknown fields are not representable in the typed body.
- Wall-clock time and floats: `datetime.now`, `time.mktime` and local-time float timestamps are integer seconds.
- ExternalAuth.TokenResponse: `access_token` and `expires_in` are always present and `expires_in` is an integer; only a missing `refresh_token` is modelled as a KeyError.
- WebSocketOAuth2.OnMessage: requires that `run` has recorded a user; the message handler is only reachable on a socket that `run` opened.
- `_on_error` and `_on_close`: logging only.
- Flask resources, ACL decorators and plugin wiring: framework glue.

=== FILE: auth.dfy ===
/** The `MicrosoftAuth` resource of wazo_microsoft/auth/http.py: starting an
    authorization, reading the stored token (refreshing it when it is about
    to expire) and deleting it. The current time, the provider's answers
    and the authorization URL with its random state are inputs. */
module MicrosoftAuth {
  import opened Wrappers
  import opened ExternalAuth
  import opened Helpers
  import opened WebSocketOAuth2

  const AuthType := "microsoft"

  /** A token is treated as expired this many seconds before its expiry. */
  const ExpiryMarginSeconds := 30

  const StatusOk := 200
  const StatusCreated := 201
  const StatusNoContent := 204

  datatype AuthError =
    | InvalidParameters(indices: set<nat>)   // schema errors, raised as UserParamException
    | NotFound                              // the store holds no record for the user
    | MissingField(key: string)             // a KeyError on the stored record
    | NotComparable(key: string)            // the stored expiry is not a number
    | RefreshFailed                          // the provider's refresh call raised

  /** The resource's shared OAuth2 session; only its scope changes. */
  datatype Session = Session(scope: seq<string>)

  /** What the OAuth2 session produced for one authorization: the URL and its random state. */
  datatype Attempt = Attempt(authorizationUrl: string, state: string)

  datatype PostOutcome = PostOutcome(authorizationUrl: string, status: int, session: Session,
                                     listener: Listener, channel: string)

  /** A non-empty requested scope replaces the session scope; an omitted or
      empty one keeps it. */
  function ApplyScope(session: Session, args: PostBody): (s: Session)
    ensures args.scope.Some? && args.scope.value != [] ==> s.scope == args.scope.value
    ensures args.scope.None? || args.scope.value == [] ==> s == session
  {
    if args.scope.Some? && args.scope.value != [] then Session(args.scope.value) else session
  }

  /** `post(user_uuid)`: validate the body, update the session scope, then
      ask the session for an authorization (`authorize`, given the scope now
      in force), start the listener on that attempt's channel and answer with
      its URL. */
  function Post(session: Session, listener: Listener, user: string, body: PostBody,
                authorize: seq<string> -> Attempt)
    : (r: Result<PostOutcome, AuthError>)
    ensures r.Success? <==> body.scope.None? || forall item :: item in body.scope.value ==> ValidScopeItem(item)
    ensures r.Failure? ==> (r.error.InvalidParameters? &&
                            forall i: nat :: i in r.error.indices <==>
                                               i < |body.scope.value| && !ValidScopeItem(body.scope.value[i]))
    ensures r.Success? ==> && r.value.status == StatusCreated
                           && r.value.session == ApplyScope(session, body)
                           && r.value.authorizationUrl == authorize(r.value.session.scope).authorizationUrl
                           && r.value.listener == listener.(userUuid := Some(user))
                           && ChannelState(listener.host, r.value.channel)
                              == Some(authorize(r.value.session.scope).state)
  {
    match LoadPostBody(body)
    case Failure(e) => Failure(InvalidParameters(e.indices))
    case Success(args) =>
      var scoped := ApplyScope(session, args);
      var attempt := authorize(scoped.scope);
      var started := Run(listener, attempt.state, user);
      Success(PostOutcome(attempt.authorizationUrl, StatusCreated, scoped, started.listener, started.channel))
  }

  /** The scope a request names governs that very request's URL; a request
      that names none is authorized with the scope already in force. */
  lemma RequestedScopeGovernsUrl(session: Session, listener: Listener, user: string, body: PostBody,
                                 authorize: seq<string> -> Attempt)
    requires LoadPostBody(body).Success?
    ensures var r := Post(session, listener, user, body, authorize);
            && r.Success?
            && (body.scope.Some? && body.scope.value != [] ==>
                  r.value.authorizationUrl == authorize(body.scope.value).authorizationUrl)
            && (body.scope.None? || body.scope.value == [] ==>
                  r.value.authorizationUrl == authorize(session.scope).authorizationUrl)
  {
  }

  /** The resource as the auth plugin registers it: every request gets a new
      instance, whose session starts from the configured scope and whose
      listener has recorded no user yet. */
  function PostOnFreshInstance(configured: seq<string>, host: string, user: string, body: PostBody,
                               authorize: seq<string> -> Attempt)
    : (r: Result<PostOutcome, AuthError>)
    ensures r.Success? <==> LoadPostBody(body).Success?
    ensures r.Success? ==>
              && r.value.status == StatusCreated
              && r.value.authorizationUrl
                 == authorize(if body.scope.Some? && body.scope.value != [] then body.scope.value
                              else configured).authorizationUrl
              && r.value.listener == Listener(host, AuthType, Some(user))
  {
    Post(Session(configured), Listener(host, AuthType, None), user, body, authorize)
  }

  /** On a fresh instance a request that names no scope is authorized with
      the configured scope, whatever earlier requests asked for. */
  lemma OmittedScopeUsesConfigured(configured: seq<string>, host: string, user: string, body: PostBody,
                                   authorize: seq<string> -> Attempt)
    requires body.scope.None? || body.scope.value == []
    ensures var r := PostOnFreshInstance(configured, host, user, body, authorize);
            r.Success? && r.value.authorizationUrl == authorize(configured).authorizationUrl
  {
    OmittedOrEmptyScopeAccepted();
  }

  /** With an instance per request, each attempt has a listener of its own:
      the code for the first attempt is stored under the first user, even
      after a second user started an attempt. */
  lemma FreshInstancesDoNotCrossWire(configured: seq<string>, host: string,
                                     user1: string, body1: PostBody, authorize1: seq<string> -> Attempt,
                                     user2: string, body2: PostBody, authorize2: seq<string> -> Attempt,
                                     message: Message, reply: Option<TokenResponse>, now: int)
    requires LoadPostBody(body1).Success? && LoadPostBody(body2).Success?
    ensures var p1 := PostOnFreshInstance(configured, host, user1, body1, authorize1).value;
            var p2 := PostOnFreshInstance(configured, host, user2, body2, authorize2).value;
            && p2.listener.userUuid == Some(user2)
            && forall w :: w in Writes(OnMessage(p1.listener, message, reply, now).effects) ==>
                             w.key == StoreKey(user1, AuthType)
  {
    var p1 := PostOnFreshInstance(configured, host, user1, body1, authorize1).value;
    var c := OnMessage(p1.listener, message, reply, now);
    forall w | w in Writes(c.effects)
      ensures w.key == StoreKey(user1, AuthType)
    {
      var i :| 0 <= i < |c.effects| && c.effects[i] == Update(w);
    }
  }

  datatype PostRequest = PostRequest(user: string, body: PostBody, authorize: seq<string> -> Attempt)

  /** A request `post` accepts. */
  predicate Accepted(request: PostRequest)
  {
    LoadPostBody(request.body).Success?
  }

  /** A request that, once accepted, replaces the session scope. */
  predicate SetsScope(request: PostRequest)
  {
    Accepted(request) && request.body.scope.Some? && request.body.scope.value != []
  }

  /** Independent statement of the scope one instance keeps: the scope of the last
      accepted request that named one, or the configured scope. */
  function LastRequestedScope(initial: seq<string>, requests: seq<PostRequest>): seq<string>
    decreases |requests|
  {
    if requests == [] then initial
    else if SetsScope(requests[|requests| - 1]) then requests[|requests| - 1].body.scope.value
    else LastRequestedScope(initial, requests[..|requests| - 1])
  }

  /** The session and listener of one instance after serving `requests` in order; a rejected
      request changes neither. The listener keeps its host and auth type and
      holds the user of the last accepted request. */
  function Replay(session: Session, listener: Listener, requests: seq<PostRequest>): (r: (Session, Listener))
    ensures r.1.host == listener.host && r.1.authType == listener.authType
    ensures (forall i :: 0 <= i < |requests| ==> !Accepted(requests[i])) ==> r == (session, listener)
    ensures requests != [] && Accepted(requests[|requests| - 1]) ==>
              r.1.userUuid == Some(requests[|requests| - 1].user)
    decreases |requests|
  {
    if requests == [] then (session, listener)
    else
      var q := requests[0];
      match Post(session, listener, q.user, q.body, q.authorize)
      case Success(o) => Replay(o.session, o.listener, requests[1..])
      case Failure(_) => Replay(session, listener, requests[1..])
  }

  lemma {:induction false} LastRequestedScopeSplit(initial: seq<string>, a: seq<PostRequest>, b: seq<PostRequest>)
    ensures LastRequestedScope(initial, a + b) == LastRequestedScope(LastRequestedScope(initial, a), b)
    decreases |b|
  {
    if b == [] {
      assert a + b == a;
    } else {
      assert (a + b)[|a + b| - 1] == b[|b| - 1];
      assert (a + b)[..|a + b| - 1] == a + b[..|b| - 1];
      LastRequestedScopeSplit(initial, a, b[..|b| - 1]);
    }
  }

  /** A non-empty scope sticks for every later request; an omitted or empty
      one leaves the previous scope in place. */
  lemma {:induction false} ReplayScopeIsLastRequested(session: Session, listener: Listener, requests: seq<PostRequest>)
    ensures Replay(session, listener, requests).0.scope == LastRequestedScope(session.scope, requests)
    decreases |requests|
  {
    if requests != [] {
      var q := requests[0];
      assert [q][..0] == [];
      LastRequestedScopeSplit(session.scope, [q], requests[1..]);
      assert [q] + requests[1..] == requests;
      match Post(session, listener, q.user, q.body, q.authorize)
      case Success(o) =>
        ReplayScopeIsLastRequested(o.session, o.listener, requests[1..]);
      case Failure(_) =>
        ReplayScopeIsLastRequested(session, listener, requests[1..]);
    }
  }

  /** `_is_token_expired`: a missing expiry counts as expired, otherwise the
      token is expired once fewer than 30 seconds remain. */
  function IsTokenExpired(now: int, expiration: Option<int>): (expired: bool)
    ensures expiration.None? ==> expired
    ensures expiration.Some? ==> (expired <==> expiration.value - now < ExpiryMarginSeconds)
  {
    expiration.None? || now + ExpiryMarginSeconds > expiration.value
  }

  lemma MissingExpirationIsExpired(now: int)
    ensures IsTokenExpired(now, None)
  {
  }

  /** The comparison is strict: exactly 30 seconds left is still valid. */
  lemma ExpiryMarginIsStrict(now: int, expiration: int)
    ensures IsTokenExpired(now, Some(expiration)) <==> expiration < now + 30
    ensures !IsTokenExpired(now, Some(now + 30))
    ensures IsTokenExpired(now, Some(now + 29))
  {
  }

  /** Once expired, a token stays expired as time passes. */
  lemma ExpiredStaysExpired(now: int, later: int, expiration: Option<int>)
    requires now <= later && IsTokenExpired(now, expiration)
    ensures IsTokenExpired(later, expiration)
  {
  }

  /** A token issued with a lifetime under 30 seconds is expired at once. */
  lemma ShortLivedTokenExpiredAtIssue(now: int, expiresIn: int)
    ensures IsTokenExpired(now, Some(TimestampExpiration(now, expiresIn))) <==> expiresIn < 30
  {
  }

  /** The stored expiry, absent when the key is missing or null, and an error
      when it is a value Python cannot compare with a number. */
  function ExpirationOf(data: Record): (r: Result<Option<int>, AuthError>)
    ensures r.Success? && r.value.Some? <==> ExpirationKey in data && data[ExpirationKey].JInt?
    ensures r.Success? && r.value.Some? ==> r.value.value == data[ExpirationKey].n
    ensures r.Failure? <==> ExpirationKey in data && !data[ExpirationKey].JInt? && !data[ExpirationKey].JNull?
  {
    if ExpirationKey !in data || data[ExpirationKey].JNull? then Success(None)
    else if data[ExpirationKey].JInt? then Success(Some(data[ExpirationKey].n))
    else Failure(NotComparable(ExpirationKey))
  }

  /** The stored scope, null when the record has none. */
  function ScopeOf(data: Record): Json
  {
    if ScopeKey in data then data[ScopeKey] else JNull
  }

  datatype GetResponse = GetResponse(accessToken: Json, expiration: Json, scope: Json)

  /** The response body and status of a read, and the store updates it made. */
  datatype GetOutcome = GetOutcome(response: GetResponse, status: int, writes: seq<Write>)

  /** `_create_get_response(data)`. */
  function CreateGetResponse(data: Record): (r: Result<GetResponse, AuthError>)
    ensures r.Success? <==> AccessTokenKey in data && ExpirationKey in data
    ensures AccessTokenKey !in data ==> r == Failure(MissingField(AccessTokenKey))
    ensures r.Success? ==> r.value == GetResponse(data[AccessTokenKey], data[ExpirationKey], ScopeOf(data))
  {
    if AccessTokenKey !in data then Failure(MissingField(AccessTokenKey))
    else if ExpirationKey !in data then Failure(MissingField(ExpirationKey))
    else Success(GetResponse(data[AccessTokenKey], data[ExpirationKey], ScopeOf(data)))
  }

  /** The record after a refresh: a new access token and expiry, and nothing
      else changed. */
  function RefreshedRecord(data: Record, token: TokenResponse, now: int): (r: Record)
    ensures r.Keys == data.Keys + {AccessTokenKey, ExpirationKey}
    ensures r[AccessTokenKey] == JStr(token.accessToken)
    ensures r[ExpirationKey] == JInt(now + token.expiresIn)
    ensures forall k :: k in data && k != AccessTokenKey && k != ExpirationKey ==> r[k] == data[k]
  {
    data[AccessTokenKey := JStr(token.accessToken)][ExpirationKey := JInt(TimestampExpiration(now, token.expiresIn))]
  }

  /** `_refresh_token(user_uuid, data)`, given the provider's answer (`None`
      when the refresh call raised). */
  function RefreshToken(key: StoreKey, data: Record, now: int, reply: Option<TokenResponse>)
    : (r: Result<GetOutcome, AuthError>)
    ensures reply.None? ==> r == Failure(RefreshFailed)
    ensures reply.Some? ==> r.Success? && r.value.status == StatusOk
    ensures reply.Some? ==> r.value.writes == [Write(key, RefreshedRecord(data, reply.value, now))]
    ensures reply.Some? ==> (r.value.response ==
                             GetResponse(JStr(reply.value.accessToken), JInt(now + reply.value.expiresIn), ScopeOf(data)))
  {
    if reply.None? then Failure(RefreshFailed)
    else
      var updated := RefreshedRecord(data, reply.value, now);
      assert ScopeOf(updated) == ScopeOf(data);
      match CreateGetResponse(updated)
      case Success(response) => Success(GetOutcome(response, StatusOk, [Write(key, updated)]))
      case Failure(e) => Failure(e)
  }

  /** `get(user_uuid)`: the stored token, refreshed first when expired. */
  function Get(store: Store, user: string, now: int, refreshReply: Option<TokenResponse>)
    : (r: Result<GetOutcome, AuthError>)
    ensures StoreKey(user, AuthType) !in store ==> r == Failure(NotFound)
    ensures r.Success? ==> r.value.status == StatusOk && |r.value.writes| <= 1
    ensures var key := StoreKey(user, AuthType);
            key in store && ExpirationOf(store[key]).Success? && !IsTokenExpired(now, ExpirationOf(store[key]).value)
            && AccessTokenKey in store[key]
            ==> r == Success(GetOutcome(GetResponse(store[key][AccessTokenKey], store[key][ExpirationKey],
                                                    ScopeOf(store[key])), StatusOk, []))
    ensures var key := StoreKey(user, AuthType);
            key in store && ExpirationOf(store[key]).Success? && IsTokenExpired(now, ExpirationOf(store[key]).value)
            ==> r == RefreshToken(key, store[key], now, refreshReply)
    ensures var key := StoreKey(user, AuthType);
            key in store && ExpirationOf(store[key]).Failure? ==> r == Failure(NotComparable(ExpirationKey))
    ensures var key := StoreKey(user, AuthType);
            key in store && ExpirationOf(store[key]).Success? && !IsTokenExpired(now, ExpirationOf(store[key]).value)
            && AccessTokenKey !in store[key]
            ==> r == Failure(MissingField(AccessTokenKey))
    ensures forall w :: r.Success? && w in r.value.writes ==> w.key == StoreKey(user, AuthType)
  {
    var key := StoreKey(user, AuthType);
    if key !in store then Failure(NotFound)
    else
      var data := store[key];
      match ExpirationOf(data)
      case Failure(e) => Failure(e)
      case Success(expiration) =>
        if IsTokenExpired(now, expiration) then RefreshToken(key, data, now, refreshReply)
        else
          match CreateGetResponse(data)
          case Success(response) => Success(GetOutcome(response, StatusOk, []))
          case Failure(e) => Failure(e)
  }

  datatype DeleteOutcome = DeleteOutcome(store: Store, status: int)

  /** `delete(user_uuid)`: remove the user's record; a missing one is not found. */
  function Delete(store: Store, user: string): (r: Result<DeleteOutcome, AuthError>)
    ensures r.Failure? <==> StoreKey(user, AuthType) !in store
    ensures r.Failure? ==> r.error == NotFound
    ensures r.Success? ==> && r.value.status == StatusNoContent
                           && r.value.store.Keys == store.Keys - {StoreKey(user, AuthType)}
                           && forall k :: k in r.value.store ==> r.value.store[k] == store[k]
  {
    var key := StoreKey(user, AuthType);
    if key !in store then Failure(NotFound)
    else Success(DeleteOutcome(store - {key}, StatusNoContent))
  }

  /** Deleting twice: the second delete is not found, and so is a read. */
  lemma DeleteTwiceNotFound(store: Store, user: string, now: int, reply: Option<TokenResponse>)
    requires Delete(store, user).Success?
    ensures Delete(Delete(store, user).value.store, user) == Failure(NotFound)
    ensures Get(Delete(store, user).value.store, user, now, reply) == Failure(NotFound)
  {
  }

  /** Deleting one user's record leaves every other user's read unchanged. */
  lemma DeleteLeavesOthers(store: Store, user: string, other: string, now: int, reply: Option<TokenResponse>)
    requires Delete(store, user).Success? && other != user
    ensures Get(Delete(store, user).value.store, other, now, reply) == Get(store, other, now, reply)
  {
    var key := StoreKey(other, AuthType);
    var s' := Delete(store, user).value.store;
    assert key in s' <==> key in store;
    if key in store {
      assert s'[key] == store[key];
    }
  }

  /** A refresh is needed at most once: right after it, a read at the same
      time (given a lifetime of at least 30 seconds) returns the new token and
      writes nothing. */
  lemma RefreshedTokenIsFresh(store: Store, user: string, now: int, reply: TokenResponse,
                              anyReply: Option<TokenResponse>)
    requires StoreKey(user, AuthType) in store
    requires ExpirationOf(store[StoreKey(user, AuthType)]).Success?
    requires IsTokenExpired(now, ExpirationOf(store[StoreKey(user, AuthType)]).value)
    requires reply.expiresIn >= ExpiryMarginSeconds
    ensures var first := Get(store, user, now, Some(reply)).value;
            var second := Get(ApplyWrites(store, first.writes), user, now, anyReply);
            && |first.writes| == 1
            && second == Success(GetOutcome(first.response, StatusOk, []))
  {
    var key := StoreKey(user, AuthType);
    var first := Get(store, user, now, Some(reply)).value;
    var updated := RefreshedRecord(store[key], reply, now);
    assert ApplyWrites(store, first.writes)[key] == updated;
    assert ExpirationOf(updated) == Success(Some(now + reply.expiresIn));
  }
}

=== FILE: directory.dfy ===
/** The Office 365 directory source of wazo_microsoft/dird/plugin.py:
    filtering, sorting and id-selection over the contacts the Microsoft
    Graph endpoint returned. Fetching is outside the model: the fetched
    contacts are an input. */
module Directory {
  import opened Wrappers
  import opened Text
  import opened Seqs
  import opened Sorting

  /** A contact as returned by the contacts endpoint: column name to its
      value, already rendered as a string. */
  type Contact = map<string, string>

  /** The lookup arguments dird hands to the source: the user and the
      caller's own session token, if any. */
  datatype LookupArgs = LookupArgs(userUuid: string, token: Option<string>)

  /** A contact without the unique column makes `list` fail (a KeyError). */
  datatype DirectoryError = MissingColumn(column: string)

  const UniqueColumn := "id"
  const SortColumn := "givenName"
  const EmailColumn := "email"

  /** A session token is usable when present and non-empty (Python truthiness). */
  predicate HasSessionToken(args: LookupArgs)
  {
    args.token.Some? && args.token.value != ""
  }

  /** The text of a column; a missing or empty value reads as ''. */
  function ColumnText(c: Contact, column: string): string
  {
    if column in c then c[column] else ""
  }

  /** The sort key; `_update_contact_fields` guarantees the column exists. */
  function GivenName(c: Contact): string
  {
    ColumnText(c, SortColumn)
  }

  /** `_update_contact_fields` on one contact: default `givenName` to '',
      then set `email` to the first e-mail address (computed by
      `firstEmail` from the defaulted contact). */
  function UpdateContact(c: Contact, firstEmail: Contact -> string): (u: Contact)
    ensures u.Keys == c.Keys + {SortColumn, EmailColumn}
    ensures u[SortColumn] == (if SortColumn in c then c[SortColumn] else "")
    ensures u[EmailColumn] == firstEmail(c[SortColumn := u[SortColumn]])
    ensures forall k :: k in c && k != EmailColumn ==> u[k] == c[k]
  {
    var named := if SortColumn in c then c else c[SortColumn := ""];
    assert named == c[SortColumn := named[SortColumn]];
    named[EmailColumn := firstEmail(named)]
  }

  function UpdateContactFields(cs: seq<Contact>, firstEmail: Contact -> string): (r: seq<Contact>)
    ensures |r| == |cs|
    ensures forall i :: 0 <= i < |cs| ==> r[i] == UpdateContact(cs[i], firstEmail)
  {
    seq(|cs|, i requires 0 <= i < |cs| => UpdateContact(cs[i], firstEmail))
  }

  /** The inner `match_fn`: some searched column's lower-cased text contains
      the (already lower-cased) term; the columns are tried in order. */
  function MatchFn(columns: seq<string>, loweredTerm: string, c: Contact): (m: bool)
    ensures m <==> exists col :: col in columns && Contains(Lower(ColumnText(c, col)), loweredTerm)
  {
    if columns == [] then false
    else if Contains(Lower(ColumnText(c, columns[0])), loweredTerm) then true
    else
      assert forall col :: col in columns <==> col == columns[0] || col in columns[1..];
      MatchFn(columns[1..], loweredTerm, c)
  }

  /** The match predicate `search` filters with. */
  function Matcher(columns: seq<string>, loweredTerm: string): Contact -> bool
  {
    c => MatchFn(columns, loweredTerm, c)
  }

  /** Independent statement of a match: the lower-cased term occurs at some
      offset of some searched column's lower-cased text. */
  ghost predicate MatchesTerm(columns: seq<string>, term: string, c: Contact)
  {
    exists col, i :: col in columns && OccursAt(Lower(ColumnText(c, col)), Lower(term), i)
  }

  /** `Office365Plugin.search` over the fetched contacts. */
  function Search(columns: seq<string>, term: string, args: LookupArgs,
                  fetched: seq<Contact>, firstEmail: Contact -> string): (r: seq<Contact>)
    ensures !HasSessionToken(args) ==> r == []
    ensures SortedBy(r, GivenName)
    ensures forall x :: x in r <==>
                        HasSessionToken(args) && x in UpdateContactFields(fetched, firstEmail) && MatchesTerm(columns, term, x)
    ensures forall x :: multiset(r)[x] ==
                        (if HasSessionToken(args) && MatchesTerm(columns, term, x)
                         then multiset(UpdateContactFields(fetched, firstEmail))[x] else 0)
  {
    if !HasSessionToken(args) then []
    else
      var contacts := UpdateContactFields(fetched, firstEmail);
      var filtered := Filter(contacts, Matcher(columns, Lower(term)));
      assert forall x :: Matcher(columns, Lower(term))(x) <==> MatchesTerm(columns, term, x);
      SortBy(filtered, GivenName)
  }

  /** The predicate `list` keeps contacts by. */
  function Listed(uniqueIds: seq<string>): Contact -> bool
  {
    c => UniqueColumn in c && c[UniqueColumn] in uniqueIds
  }

  /** `Office365Plugin.list`: the fetched contacts whose `id` is one of
      `uniqueIds`, in fetch order; a contact without `id` raises. */
  function List(uniqueIds: seq<string>, args: LookupArgs,
                fetched: seq<Contact>, firstEmail: Contact -> string): (r: Result<seq<Contact>, DirectoryError>)
    ensures !HasSessionToken(args) ==> r == Success([])
    ensures HasSessionToken(args) ==> (r.Success? <==> forall c :: c in fetched ==> UniqueColumn in c)
    ensures r.Failure? ==> r.error == MissingColumn(UniqueColumn)
    ensures r.Success? ==> forall x :: x in r.value <==>
      HasSessionToken(args) && x in UpdateContactFields(fetched, firstEmail) && x[UniqueColumn] in uniqueIds
    ensures r.Success? ==> IsSubsequence(r.value, UpdateContactFields(fetched, firstEmail))
    ensures r.Success? ==> forall x :: multiset(r.value)[x] ==
                                       (if HasSessionToken(args) && UniqueColumn in x && x[UniqueColumn] in uniqueIds
                                        then multiset(UpdateContactFields(fetched, firstEmail))[x] else 0)
  {
    if !HasSessionToken(args) then Success([])
    else
      var contacts := UpdateContactFields(fetched, firstEmail);
      if exists c :: c in contacts && UniqueColumn !in c then
        Failure(MissingColumn(UniqueColumn))
      else
        FilterIsSubsequence(contacts, Listed(uniqueIds));
        Success(Filter(contacts, Listed(uniqueIds)))
  }

  /** `Office365Plugin.first_match`: this source never answers a reverse lookup. */
  function FirstMatch(term: string, args: LookupArgs): (r: Option<Contact>)
    ensures r == None
  {
    None
  }

  /** The result is the matching contacts, sorted stably: contacts that share
      a `givenName` keep their fetch order. */
  lemma SearchIsStableSortOfMatches(columns: seq<string>, term: string, args: LookupArgs,
                                    fetched: seq<Contact>, firstEmail: Contact -> string)
    requires HasSessionToken(args)
    ensures var matching := Filter(UpdateContactFields(fetched, firstEmail), Matcher(columns, Lower(term)));
            var r := Search(columns, term, args, fetched, firstEmail);
            && multiset(r) == multiset(matching)
            && SortedBy(r, GivenName)
            && forall k :: WithKey(r, GivenName, k) == WithKey(matching, GivenName, k)
  {
  }

  /** A contact whose `givenName` is missing (hence '') sorts before every
      contact with a non-empty `givenName`. */
  lemma SearchBlankNamesFirst(columns: seq<string>, term: string, args: LookupArgs,
                              fetched: seq<Contact>, firstEmail: Contact -> string)
    ensures var r := Search(columns, term, args, fetched, firstEmail);
            forall i, j :: 0 <= i < j < |r| && GivenName(r[j]) == "" ==> GivenName(r[i]) == ""
  {
  }

  /** With no searched columns configured, nothing ever matches. */
  lemma SearchWithoutColumns(term: string, args: LookupArgs,
                             fetched: seq<Contact>, firstEmail: Contact -> string)
    ensures Search([], term, args, fetched, firstEmail) == []
  {
    var r := Search([], term, args, fetched, firstEmail);
    assert multiset(r) == multiset{};
  }

  /** Terms that differ only in letter case give the same result. */
  lemma SearchCaseInvariant(columns: seq<string>, term1: string, term2: string, args: LookupArgs,
                            fetched: seq<Contact>, firstEmail: Contact -> string)
    requires SameIgnoringCase(term1, term2)
    ensures Search(columns, term1, args, fetched, firstEmail) == Search(columns, term2, args, fetched, firstEmail)
  {
    LowerIgnoresCase(term1, term2);
  }

  /** Without a session token neither `search` nor `list` looks at the
      fetched contacts: both answer empty whatever the endpoint holds. */
  lemma NoTokenNoResults(columns: seq<string>, term: string, uniqueIds: seq<string>, args: LookupArgs,
                         fetched1: seq<Contact>, fetched2: seq<Contact>, firstEmail: Contact -> string)
    requires !HasSessionToken(args)
    ensures Search(columns, term, args, fetched1, firstEmail) == Search(columns, term, args, fetched2, firstEmail) == []
    ensures List(uniqueIds, args, fetched1, firstEmail) == List(uniqueIds, args, fetched2, firstEmail) == Success([])
  {
  }
}

=== FILE: external_auth.dfy ===
/** The host's external-auth storage as the Microsoft plugin sees it: an
    abstract map from (user, auth type) to a JSON record, and the shape of
    what the provider's token endpoint answers. */
module ExternalAuth {
  import opened Wrappers

  /** The JSON values a stored token record holds. */
  datatype Json = JNull | JInt(n: int) | JStr(s: string) | JStrs(items: seq<string>)

  type Record = map<string, Json>

  const AccessTokenKey := "access_token"
  const RefreshTokenKey := "refresh_token"
  const ExpirationKey := "token_expiration"
  const ScopeKey := "scope"

  datatype StoreKey = StoreKey(user: string, authType: string)

  type Store = map<StoreKey, Record>

  /** One `external_auth_service.update(user, auth_type, data)` call. */
  datatype Write = Write(key: StoreKey, record: Record)

  /** The store after the given updates, in order; an update replaces the
      whole record under its key. */
  function ApplyWrites(store: Store, writes: seq<Write>): (s: Store)
    ensures writes == [] ==> s == store
    ensures |writes| == 1 ==> s == store[writes[0].key := writes[0].record]
    ensures s.Keys == store.Keys + set w | w in writes :: w.key
    decreases |writes|
  {
    if writes == [] then store
    else
      var rest := ApplyWrites(store[writes[0].key := writes[0].record], writes[1..]);
      assert (set w | w in writes :: w.key) == {writes[0].key} + (set w | w in writes[1..] :: w.key) by {
        assert forall w :: w in writes <==> w == writes[0] || w in writes[1..];
      }
      rest
  }

  /** The fields of a token-endpoint answer the plugin reads:
      `access_token`, `expires_in` and, optionally, `refresh_token`. */
  datatype TokenResponse = TokenResponse(accessToken: string, refreshToken: Option<string>, expiresIn: int)
}

=== FILE: helpers.dfy ===
/** wazo_microsoft/auth/helpers.py: the expiration arithmetic shared by the
    first token and every refresh, and the body schema of the request that
    starts an authorization. */
module Helpers {
  import opened Wrappers

  /** `get_timestamp_expiration`: the absolute expiry, in whole seconds, of a
      token issued at `now` and valid for `expiresIn` seconds. */
  function TimestampExpiration(now: int, expiresIn: int): (expiry: int)
    ensures expiry - now == expiresIn
  {
    now + expiresIn
  }

  /** A longer lifetime never yields an earlier expiry. */
  lemma ExpirationMonotone(now: int, expiresIn1: int, expiresIn2: int)
    requires expiresIn1 <= expiresIn2
    ensures TimestampExpiration(now, expiresIn1) <= TimestampExpiration(now, expiresIn2)
  {
  }

  lemma ExpirationAtZeroLifetime(now: int)
    ensures TimestampExpiration(now, 0) == now
  {
  }

  const ScopeItemMinLength := 1
  const ScopeItemMaxLength := 512

  /** A scope item is valid when it has between 1 and 512 characters. */
  predicate ValidScopeItem(item: string)
  {
    ScopeItemMinLength <= |item| <= ScopeItemMaxLength
  }

  /** The JSON body of the authorization request; `scope` may be omitted. */
  datatype PostBody = PostBody(scope: Option<seq<string>>)

  /** A schema failure names the positions of the out-of-bounds scope items. */
  datatype SchemaError = ScopeItemLength(indices: set<nat>)

  /** `MicrosoftPostSchema().load(body)`. */
  function LoadPostBody(body: PostBody): (r: Result<PostBody, SchemaError>)
    ensures r.Success? <==> body.scope.None? || forall item :: item in body.scope.value ==> ValidScopeItem(item)
    ensures r.Success? ==> r.value == body
    ensures r.Failure? ==> (body.scope.Some? &&
                            forall i: nat :: i in r.error.indices <==>
                                               i < |body.scope.value| && !ValidScopeItem(body.scope.value[i]))
  {
    match body.scope
    case None => Success(body)
    case Some(items) =>
      var bad := set i: nat | i < |items| && !ValidScopeItem(items[i]);
      if bad == {} then
        assert forall i :: 0 <= i < |items| ==> i in bad || ValidScopeItem(items[i]);
        Success(body)
      else
        Failure(ScopeItemLength(bad))
  }

  lemma EmptyScopeItemRejected()
    ensures LoadPostBody(PostBody(Some([""]))) == Failure(ScopeItemLength({0}))
  {
    var items := [""];
    var r := LoadPostBody(PostBody(Some(items)));
    assert items[0] in items && !ValidScopeItem(items[0]);
    assert r.error.indices == {0};
  }

  lemma OverlongScopeItemRejected(item: string)
    requires |item| == ScopeItemMaxLength + 1
    ensures LoadPostBody(PostBody(Some(["openid", item]))) == Failure(ScopeItemLength({1}))
  {
    var items := ["openid", item];
    var r := LoadPostBody(PostBody(Some(items)));
    assert items[1] in items && !ValidScopeItem(items[1]);
    assert ValidScopeItem(items[0]);
    assert r.error.indices == {1};
  }

  lemma BoundaryScopeItemsAccepted(short: string, long: string)
    requires |short| == ScopeItemMinLength && |long| == ScopeItemMaxLength
    ensures LoadPostBody(PostBody(Some([short, long]))).Success?
  {
  }

  lemma OmittedOrEmptyScopeAccepted()
    ensures LoadPostBody(PostBody(None)) == Success(PostBody(None))
    ensures LoadPostBody(PostBody(Some([]))) == Success(PostBody(Some([])))
  {
  }
}

=== FILE: scenarios.dfy ===
/** End-to-end runs of the authorization flow: start an attempt, complete it
    with a code, then read the token before and after it expires. */
module Scenarios {
  import opened Wrappers
  import opened ExternalAuth
  import opened Helpers
  import opened WebSocketOAuth2
  import opened MicrosoftAuth

  /** The store after the completion of an attempt the user started. */
  function Completed(store: Store, session: Session, listener: Listener, user: string, body: PostBody,
                     authorize: seq<string> -> Attempt, code: string, token: TokenResponse, issuedAt: int): Store
    requires Post(session, listener, user, body, authorize).Success?
  {
    var posted := Post(session, listener, user, body, authorize).value;
    var c := OnMessage(posted.listener, Object(map[CodeField := code]), Some(token), issuedAt);
    ApplyWrites(store, Writes(c.effects))
  }

  lemma {:induction false} CompletionWritesOnce(user: string, authType: string, code: string,
                                                token: TokenResponse, issuedAt: int)
    requires token.refreshToken.Some?
    ensures var c := Complete(user, authType, Object(map[CodeField := code]), Some(token), issuedAt);
            && c.effects[1] == FetchToken(Some(code))
            && Writes(c.effects) == [Write(StoreKey(user, authType), FirstTokenRecord(token, issuedAt).value)]
  {
    var c := Complete(user, authType, Object(map[CodeField := code]), Some(token), issuedAt);
    var w := Write(StoreKey(user, authType), FirstTokenRecord(token, issuedAt).value);
    assert c.effects == [CloseSocket, FetchToken(Some(code)), Update(w)];
    var tail := c.effects[1..];
    assert tail[1..] == [Update(w)] && tail[1..][1..] == [];
    assert Writes(tail[1..]) == [w];
    assert Writes(tail) == [w];
  }

  /** Start, complete with a code, read within the token's lifetime: the read
      returns the exchanged token, writes nothing, and has no scope, since the
      first record stores none. */
  lemma CompletedAuthorizationIsReadable(store: Store, session: Session, listener: Listener, user: string,
                                         body: PostBody, authorize: seq<string> -> Attempt, code: string,
                                         token: TokenResponse, issuedAt: int, now: int,
                                         anyReply: Option<TokenResponse>)
    requires Post(session, listener, user, body, authorize).Success?
    requires listener.authType == AuthType && token.refreshToken.Some?
    requires now + ExpiryMarginSeconds <= issuedAt + token.expiresIn
    ensures Get(Completed(store, session, listener, user, body, authorize, code, token, issuedAt), user, now, anyReply)
            == Success(GetOutcome(GetResponse(JStr(token.accessToken), JInt(issuedAt + token.expiresIn), JNull),
                                  StatusOk, []))
  {
    CompletionWritesOnce(user, AuthType, code, token, issuedAt);
  }

  /** Start, complete, read after expiry: exactly one refresh write, the new
      access token is returned, and the first refresh token is kept. */
  lemma ExpiredTokenRefreshedOnce(store: Store, session: Session, listener: Listener, user: string,
                                  body: PostBody, authorize: seq<string> -> Attempt, code: string,
                                  token: TokenResponse, issuedAt: int, now: int, refresh: TokenResponse)
    requires Post(session, listener, user, body, authorize).Success?
    requires listener.authType == AuthType && token.refreshToken.Some?
    requires now + ExpiryMarginSeconds > issuedAt + token.expiresIn
    ensures var g := Get(Completed(store, session, listener, user, body, authorize, code, token, issuedAt),
                         user, now, Some(refresh));
            && g.Success?
            && |g.value.writes| == 1
            && g.value.response.accessToken == JStr(refresh.accessToken)
            && g.value.response.expiration == JInt(now + refresh.expiresIn)
            && g.value.writes[0].record.Keys == {AccessTokenKey, RefreshTokenKey, ExpirationKey}
            && g.value.writes[0].record[RefreshTokenKey] == JStr(token.refreshToken.value)
  {
    CompletionWritesOnce(user, AuthType, code, token, issuedAt);
  }
}

=== FILE: seqs.dfy ===
/** Order-preserving selection from a sequence: what a Python
    list comprehension with a condition computes. */
module Seqs {

  function Filter<T(!new)>(s: seq<T>, p: T -> bool): (r: seq<T>)
    ensures |r| <= |s|
    ensures forall x :: x in r <==> x in s && p(x)
    ensures forall x :: multiset(r)[x] == if p(x) then multiset(s)[x] else 0
  {
    if s == [] then []
    else
      assert s == [s[0]] + s[1..];
      (if p(s[0]) then [s[0]] else []) + Filter(s[1..], p)
  }

  /** `r` is `s` with some elements dropped and the rest kept in order. */
  ghost predicate IsSubsequence<T>(r: seq<T>, s: seq<T>)
    decreases |s|
  {
    r == [] || (s != [] && ((r[0] == s[0] && IsSubsequence(r[1..], s[1..])) || IsSubsequence(r, s[1..])))
  }

  lemma {:induction false} FilterIsSubsequence<T(!new)>(s: seq<T>, p: T -> bool)
    ensures IsSubsequence(Filter(s, p), s)
    decreases |s|
  {
    if s != [] {
      FilterIsSubsequence(s[1..], p);
      var rest := Filter(s[1..], p);
      if p(s[0]) {
        assert Filter(s, p) == [s[0]] + rest;
        assert ([s[0]] + rest)[1..] == rest;
      } else {
        assert Filter(s, p) == rest;
      }
    }
  }
}

=== FILE: sorting.dfy ===
/** A stable sort by a string key. An insertion sort that places each element
    before every later element whose key is not smaller computes the same
    result as Python's `sorted(s, key=...)`, since a stable sort's output is
    unique. */
module Sorting {
  import opened Text

  ghost predicate SortedBy<T>(s: seq<T>, key: T -> string)
  {
    forall i, j :: 0 <= i < j < |s| ==> LexLe(key(s[i]), key(s[j]))
  }

  /** The elements of `s` whose key is `k`, in their order in `s`. */
  function WithKey<T>(s: seq<T>, key: T -> string, k: string): seq<T>
  {
    if s == [] then [] else (if key(s[0]) == k then [s[0]] else []) + WithKey(s[1..], key, k)
  }

  /** Inserts `x` into the sorted `s` in front of the first element whose
      key is at least `key(x)`. */
  function InsertBy<T>(x: T, s: seq<T>, key: T -> string): (r: seq<T>)
    requires SortedBy(s, key)
    ensures SortedBy(r, key)
    ensures multiset(r) == multiset(s) + multiset{x}
    ensures forall k :: WithKey(r, key, k) == (if key(x) == k then [x] else []) + WithKey(s, key, k)
    decreases |s|
  {
    if s == [] then
      [x]
    else if LexLe(key(x), key(s[0])) then
      InsertFront(x, s, key);
      [x] + s
    else
      var rest := InsertBy(x, s[1..], key);
      InsertBehind(x, s, key, rest);
      [s[0]] + rest
  }

  lemma InsertFront<T>(x: T, s: seq<T>, key: T -> string)
    requires SortedBy(s, key) && s != [] && LexLe(key(x), key(s[0]))
    ensures SortedBy([x] + s, key)
    ensures forall k :: WithKey([x] + s, key, k) == (if key(x) == k then [x] else []) + WithKey(s, key, k)
  {
    var r := [x] + s;
    forall i, j | 0 <= i < j < |r|
      ensures LexLe(key(r[i]), key(r[j]))
    {
      if i == 0 && j > 1 {
        LexLeTransitive(key(x), key(s[0]), key(s[j - 1]));
      }
    }
    assert r[1..] == s;
  }

  lemma InsertBehind<T>(x: T, s: seq<T>, key: T -> string, rest: seq<T>)
    requires SortedBy(s, key) && s != [] && !LexLe(key(x), key(s[0]))
    requires SortedBy(rest, key)
    requires multiset(rest) == multiset(s[1..]) + multiset{x}
    requires forall k :: WithKey(rest, key, k) == (if key(x) == k then [x] else []) + WithKey(s[1..], key, k)
    ensures SortedBy([s[0]] + rest, key)
    ensures multiset([s[0]] + rest) == multiset(s) + multiset{x}
    ensures forall k :: WithKey([s[0]] + rest, key, k) == (if key(x) == k then [x] else []) + WithKey(s, key, k)
  {
    HeadBeforeRest(x, s, key, rest);
    SortedCons(s[0], rest, key);
    assert s == [s[0]] + s[1..];
    LexLeReflexive(key(x));
    WithKeyCommutes(x, s, key, rest);
  }

  /** The head of `s` is no greater than anything inserted behind it. */
  lemma HeadBeforeRest<T>(x: T, s: seq<T>, key: T -> string, rest: seq<T>)
    requires SortedBy(s, key) && s != [] && !LexLe(key(x), key(s[0]))
    requires multiset(rest) == multiset(s[1..]) + multiset{x}
    ensures forall j :: 0 <= j < |rest| ==> LexLe(key(s[0]), key(rest[j]))
  {
    LexLeTotal(key(x), key(s[0]));
    forall j | 0 <= j < |rest|
      ensures LexLe(key(s[0]), key(rest[j]))
    {
      assert rest[j] in multiset(rest);
      if rest[j] != x {
        assert rest[j] in multiset(s[1..]);
        var m :| 0 <= m < |s[1..]| && s[1..][m] == rest[j];
        assert s[m + 1] == rest[j];
      }
    }
  }

  lemma SortedCons<T>(y: T, rest: seq<T>, key: T -> string)
    requires SortedBy(rest, key)
    requires forall j :: 0 <= j < |rest| ==> LexLe(key(y), key(rest[j]))
    ensures SortedBy([y] + rest, key)
  {
    var r := [y] + rest;
    forall i, j | 0 <= i < j < |r|
      ensures LexLe(key(r[i]), key(r[j]))
    {
      assert r[j] == rest[j - 1];
      if i > 0 {
        assert r[i] == rest[i - 1];
      }
    }
  }

  lemma WithKeyCommutes<T>(x: T, s: seq<T>, key: T -> string, rest: seq<T>)
    requires s != [] && key(x) != key(s[0])
    requires forall k :: WithKey(rest, key, k) == (if key(x) == k then [x] else []) + WithKey(s[1..], key, k)
    ensures forall k :: WithKey([s[0]] + rest, key, k) == (if key(x) == k then [x] else []) + WithKey(s, key, k)
  {
    assert ([s[0]] + rest)[1..] == rest;
  }

  function SortBy<T>(s: seq<T>, key: T -> string): (r: seq<T>)
    ensures SortedBy(r, key)
    ensures multiset(r) == multiset(s)
    ensures forall k :: WithKey(r, key, k) == WithKey(s, key, k)
    decreases |s|
  {
    if s == [] then []
    else
      assert s == [s[0]] + s[1..];
      InsertBy(s[0], SortBy(s[1..], key), key)
  }
}

=== FILE: text.dfy ===
/** The string primitives the directory search relies on: lower-casing,
    substring search, and the code-point ordering Python uses when it
    compares two strings. */
module Text {

  /** Lower-cases an ASCII capital letter and keeps every other character. */
  function LowerChar(c: char): char
  {
    if 'A' <= c <= 'Z' then (c as int - 'A' as int + 'a' as int) as char else c
  }

  /** `s.lower()`, character by character. */
  function Lower(s: string): (r: string)
    ensures |r| == |s|
    ensures forall i :: 0 <= i < |s| ==> r[i] == LowerChar(s[i])
  {
    if s == [] then [] else [LowerChar(s[0])] + Lower(s[1..])
  }

  /** The two strings differ at most in the case of their letters. */
  predicate SameIgnoringCase(a: string, b: string)
  {
    |a| == |b| && forall i :: 0 <= i < |a| ==> LowerChar(a[i]) == LowerChar(b[i])
  }

  lemma LowerIgnoresCase(a: string, b: string)
    requires SameIgnoringCase(a, b)
    ensures Lower(a) == Lower(b)
  {
    assert forall i :: 0 <= i < |a| ==> Lower(a)[i] == Lower(b)[i];
  }

  /** `needle` occurs in `hay` starting at offset `i`. */
  ghost predicate OccursAt(hay: string, needle: string, i: int)
  {
    0 <= i && i + |needle| <= |hay| && hay[i..i + |needle|] == needle
  }

  /** Python's `needle in hay` on strings; the empty needle occurs everywhere. */
  function Contains(hay: string, needle: string): (found: bool)
    ensures found <==> exists i :: OccursAt(hay, needle, i)
    decreases |hay|
  {
    if |hay| < |needle| then
      false
    else if needle <= hay then
      assert OccursAt(hay, needle, 0);
      true
    else
      ShiftOccurrences(hay, needle);
      Contains(hay[1..], needle)
  }

  /** When `needle` is not a prefix of `hay`, its occurrences in `hay` are
      those in `hay[1..]`, shifted by one. */
  lemma ShiftOccurrences(hay: string, needle: string)
    requires |needle| <= |hay| && !(needle <= hay)
    ensures |hay| > 0
    ensures (exists i :: OccursAt(hay, needle, i)) <==> (exists i :: OccursAt(hay[1..], needle, i))
  {
    forall i | OccursAt(hay, needle, i)
      ensures OccursAt(hay[1..], needle, i - 1)
    {
      assert i != 0;
      assert hay[1..][i - 1..i - 1 + |needle|] == hay[i..i + |needle|];
    }
    forall i | OccursAt(hay[1..], needle, i)
      ensures OccursAt(hay, needle, i + 1)
    {
      assert hay[1..][i..i + |needle|] == hay[i + 1..i + 1 + |needle|];
    }
  }

  /** Python's `a <= b` on strings: lexicographic by code point, with a
      proper prefix ordered first. */
  predicate LexLe(a: string, b: string)
    decreases |a|
  {
    |a| == 0 || (|b| > 0 && (a[0] < b[0] || (a[0] == b[0] && LexLe(a[1..], b[1..]))))
  }

  lemma {:induction false} LexLeReflexive(a: string)
    ensures LexLe(a, a)
    decreases |a|
  {
    if |a| > 0 {
      LexLeReflexive(a[1..]);
    }
  }

  lemma {:induction false} LexLeTotal(a: string, b: string)
    ensures LexLe(a, b) || LexLe(b, a)
    decreases |a|
  {
    if |a| > 0 && |b| > 0 && a[0] == b[0] {
      LexLeTotal(a[1..], b[1..]);
    }
  }

  lemma {:induction false} LexLeAntisymmetric(a: string, b: string)
    requires LexLe(a, b) && LexLe(b, a)
    ensures a == b
    decreases |a|
  {
    if |a| > 0 {
      LexLeAntisymmetric(a[1..], b[1..]);
      assert a == [a[0]] + a[1..];
      assert b == [b[0]] + b[1..];
    }
  }

  lemma {:induction false} LexLeTransitive(a: string, b: string, c: string)
    requires LexLe(a, b) && LexLe(b, c)
    ensures LexLe(a, c)
    decreases |a|
  {
    if |a| > 0 && a[0] == b[0] && b[0] == c[0] {
      LexLeTransitive(a[1..], b[1..], c[1..]);
    }
  }
}

=== FILE: websocket.dfy ===
/** wazo_microsoft/auth/websocket_oauth2.py: the listener that waits on the
    completion channel of an authorization attempt and, when the redirect's
    code arrives, exchanges it for the first token and stores it. The socket
    and the token exchange are outside the model: the message and the
    provider's answer are inputs, and the step returns what it does, in
    order, as a list of effects. */
module WebSocketOAuth2 {
  import opened Wrappers
  import opened ExternalAuth
  import opened Helpers

  const ChannelSeparator := "/ws/"
  const CodeField := "code"

  /** The single listener object the auth resource owns. `userUuid` is
      whatever the latest `run` recorded; every attempt shares it. */
  datatype Listener = Listener(host: string, authType: string, userUuid: Option<string>)

  /** The channel of one attempt: the host, the `/ws/` separator, then the state. */
  function Channel(host: string, state: string): string
  {
    host + ChannelSeparator + state
  }

  /** Reads the attempt's state back from a channel of `host`. */
  function ChannelState(host: string, url: string): Option<string>
  {
    var prefix := host + ChannelSeparator;
    if prefix <= url then Some(url[|prefix|..]) else None
  }

  /** The channel names exactly its state: parsing gives it back, and a
      channel of `host` that parses to `state` is that state's channel. */
  lemma ChannelRoundTrip(host: string, state: string, url: string)
    ensures ChannelState(host, Channel(host, state)) == Some(state)
    ensures ChannelState(host, url) == Some(state) ==> url == Channel(host, state)
  {
    var prefix := host + ChannelSeparator;
    assert Channel(host, state) == prefix + state;
    assert (prefix + state)[|prefix|..] == state;
    if ChannelState(host, url) == Some(state) {
      assert url == url[..|prefix|] + url[|prefix|..];
    }
  }

  /** Distinct attempts of one host listen on distinct channels. */
  lemma ChannelsDistinct(host: string, state1: string, state2: string)
    requires state1 != state2
    ensures Channel(host, state1) != Channel(host, state2)
  {
    ChannelRoundTrip(host, state1, Channel(host, state2));
    ChannelRoundTrip(host, state2, Channel(host, state2));
  }

  datatype Opened = Opened(listener: Listener, channel: string)

  /** `run(state, user_uuid)`: record the user on the shared listener and
      open the attempt's channel. */
  function Run(listener: Listener, state: string, user: string): (r: Opened)
    ensures r.listener == listener.(userUuid := Some(user))
    ensures ChannelState(listener.host, r.channel) == Some(state)
  {
    ChannelRoundTrip(listener.host, state, Channel(listener.host, state));
    Opened(listener.(userUuid := Some(user)), Channel(listener.host, state))
  }

  /** A frame on the channel: not JSON, JSON but not an object, or an object. */
  datatype Message = Unparsable | NonObject | Object(fields: map<string, string>)

  /** What a completion step does, in order. */
  datatype Effect =
    | CloseSocket
    | FetchToken(code: Option<string>)   // the authorization-code exchange
    | Update(write: Write)               // the store write of the first token

  datatype CompletionError =
    | MalformedJson                      // `json.loads` raised
    | NotAnObject                        // `msg.get` raised
    | ExchangeFailed                     // `fetch_token` raised
    | MissingTokenField(key: string)     // the answer lacked a field (KeyError)

  datatype Completion = Completion(effects: seq<Effect>, failure: Option<CompletionError>)

  /** The `code` field of the message, if present. */
  function CodeOf(fields: map<string, string>): Option<string>
  {
    if CodeField in fields then Some(fields[CodeField]) else None
  }

  /** The record `create_first_token` persists. */
  function FirstTokenRecord(token: TokenResponse, now: int): (r: Result<Record, CompletionError>)
    ensures r.Success? <==> token.refreshToken.Some?
    ensures r.Failure? ==> r.error == MissingTokenField(RefreshTokenKey)
    ensures r.Success? ==> r.value.Keys == {AccessTokenKey, RefreshTokenKey, ExpirationKey}
    ensures r.Success? ==> && r.value[AccessTokenKey] == JStr(token.accessToken)
                           && r.value[RefreshTokenKey] == JStr(token.refreshToken.value)
                           && r.value[ExpirationKey] == JInt(now + token.expiresIn)
  {
    if token.refreshToken.None? then Failure(MissingTokenField(RefreshTokenKey))
    else
      Success(map[AccessTokenKey := JStr(token.accessToken),
                  RefreshTokenKey := JStr(token.refreshToken.value),
                  ExpirationKey := JInt(TimestampExpiration(now, token.expiresIn))])
  }

  /** `create_first_token(user, code)`, given what the token endpoint answered
      (`None` when the exchange raised). */
  function CreateFirstToken(user: string, authType: string, code: Option<string>,
                            reply: Option<TokenResponse>, now: int): (c: Completion)
    ensures |c.effects| >= 1 && c.effects[0] == FetchToken(code)
    ensures c.failure.None? <==> reply.Some? && reply.value.refreshToken.Some?
    ensures c.failure.None? ==>
      c.effects == [FetchToken(code), Update(Write(StoreKey(user, authType), FirstTokenRecord(reply.value, now).value))]
    ensures c.failure.Some? ==> c.effects == [FetchToken(code)]
  {
    if reply.None? then Completion([FetchToken(code)], Some(ExchangeFailed))
    else
      match FirstTokenRecord(reply.value, now)
      case Failure(e) => Completion([FetchToken(code)], Some(e))
      case Success(data) => Completion([FetchToken(code), Update(Write(StoreKey(user, authType), data))], None)
  }

  /** The completion step for the user `user`: parse, close, exchange, store. */
  function Complete(user: string, authType: string, message: Message,
                    reply: Option<TokenResponse>, now: int): (c: Completion)
    ensures message.Unparsable? ==> c == Completion([], Some(MalformedJson))
    ensures message.NonObject? ==> c == Completion([CloseSocket], Some(NotAnObject))
    ensures !message.Unparsable? ==> |c.effects| >= 1 && c.effects[0] == CloseSocket
    ensures message.Object? ==> |c.effects| >= 2 && c.effects[1] == FetchToken(CodeOf(message.fields))
    ensures forall i :: 0 <= i < |c.effects| && c.effects[i].Update? ==>
              i == 2 && c.effects[i].write.key == StoreKey(user, authType)
    ensures c.failure.None? <==> message.Object? && reply.Some? && reply.value.refreshToken.Some?
    ensures c.failure.None? ==> |c.effects| == 3 && c.effects[2].Update?
    ensures c.failure.Some? ==> forall e :: e in c.effects ==> !e.Update?
    ensures c.failure.None? ==>
              c.effects[2] == Update(Write(StoreKey(user, authType), FirstTokenRecord(reply.value, now).value))
  {
    match message
    case Unparsable => Completion([], Some(MalformedJson))
    case NonObject => Completion([CloseSocket], Some(NotAnObject))
    case Object(fields) =>
      var exchange := CreateFirstToken(user, authType, CodeOf(fields), reply, now);
      Completion([CloseSocket] + exchange.effects, exchange.failure)
  }

  /** `_on_message` on the shared listener: the record goes to whichever user
      the latest `run` recorded. */
  function OnMessage(listener: Listener, message: Message, reply: Option<TokenResponse>, now: int): (c: Completion)
    requires listener.userUuid.Some?
    ensures forall i :: 0 <= i < |c.effects| && c.effects[i].Update? ==>
              c.effects[i].write.key == StoreKey(listener.userUuid.value, listener.authType)
    ensures !message.Unparsable? ==> |c.effects| >= 1 && c.effects[0] == CloseSocket
    ensures c.failure.None? <==> message.Object? && reply.Some? && reply.value.refreshToken.Some?
    ensures c.failure.Some? ==> forall e :: e in c.effects ==> !e.Update?
    ensures c.failure.None? ==>
              |c.effects| == 3 &&
              c.effects[2] == Update(Write(StoreKey(listener.userUuid.value, listener.authType),
                                           FirstTokenRecord(reply.value, now).value))
  {
    Complete(listener.userUuid.value, listener.authType, message, reply, now)
  }

  /** The updates a completion performed. */
  function Writes(effects: seq<Effect>): (ws: seq<Write>)
    ensures forall w :: w in ws <==> Update(w) in effects
    decreases |effects|
  {
    if effects == [] then []
    else
      assert forall e :: e in effects <==> e == effects[0] || e in effects[1..];
      (if effects[0].Update? then [effects[0].write] else []) + Writes(effects[1..])
  }

  /** Two overlapping attempts on the shared listener: Alice's code, arriving
      after Bob started his attempt, is stored under Bob. */
  lemma SharedListenerCrossWires(host: string, token: TokenResponse, now: int)
    requires token.refreshToken.Some?
    ensures var l0 := Listener(host, "microsoft", None);
            var alice := Run(l0, "state-a", "alice");
            var bob := Run(alice.listener, "state-b", "bob");
            var c := OnMessage(bob.listener, Object(map[CodeField := "code-a"]), Some(token), now);
            && c.failure.None?
            && c.effects[2].write.key == StoreKey("bob", "microsoft")
  {
  }

  /** Per-attempt bookkeeping: each state remembers the user who started it. */
  type Registry = map<string, string>

  /** `run` with the user kept per attempt instead of on the shared listener. */
  function RunAttempt(registry: Registry, state: string, user: string): (r: Registry)
    ensures state in r && r[state] == user
    ensures forall s :: s in registry && s != state ==> s in r && r[s] == registry[s]
  {
    registry[state := user]
  }

  /** `_on_message` for the attempt with state `state`: the record goes to the
      user who started that attempt. */
  function OnMessageFor(registry: Registry, authType: string, state: string, message: Message,
                        reply: Option<TokenResponse>, now: int): (c: Completion)
    requires state in registry
    ensures forall i :: 0 <= i < |c.effects| && c.effects[i].Update? ==>
              c.effects[i].write.key == StoreKey(registry[state], authType)
    ensures !message.Unparsable? ==> |c.effects| >= 1 && c.effects[0] == CloseSocket
    ensures c.failure.None? <==> message.Object? && reply.Some? && reply.value.refreshToken.Some?
    ensures c.failure.Some? ==> forall e :: e in c.effects ==> !e.Update?
    ensures c.failure.None? ==>
              |c.effects| == 3 &&
              c.effects[2] == Update(Write(StoreKey(registry[state], authType), FirstTokenRecord(reply.value, now).value))
  {
    Complete(registry[state], authType, message, reply, now)
  }

  /** With per-attempt users, overlapping attempts cannot cross-wire: the
      first attempt's code is stored under the first user whatever was
      started after it. */
  lemma AttemptsDoNotCrossWire(registry: Registry, authType: string, state1: string, user1: string,
                               state2: string, user2: string, message: Message,
                               reply: Option<TokenResponse>, now: int)
    requires state1 != state2
    ensures var r := RunAttempt(RunAttempt(registry, state1, user1), state2, user2);
            var c := OnMessageFor(r, authType, state1, message, reply, now);
            forall w :: w in Writes(c.effects) ==> w.key == StoreKey(user1, authType)
  {
    var r := RunAttempt(RunAttempt(registry, state1, user1), state2, user2);
    var c := OnMessageFor(r, authType, state1, message, reply, now);
    forall w | w in Writes(c.effects)
      ensures w.key == StoreKey(user1, authType)
    {
      var i :| 0 <= i < |c.effects| && c.effects[i] == Update(w);
    }
  }

  /** With a single attempt in flight the shared listener and the per-attempt
      registry do the same thing. */
  lemma SingleAttemptAgrees(listener: Listener, registry: Registry, state: string, user: string,
                            message: Message, reply: Option<TokenResponse>, now: int)
    ensures OnMessage(Run(listener, state, user).listener, message, reply, now)
            == OnMessageFor(RunAttempt(registry, state, user), listener.authType, state, message, reply, now)
  {
  }
}

=== FILE: wrappers.dfy ===
/** Option and Result, used for optional values and for the error paths the
    plugins take (raised exceptions become `Failure`). */
module Wrappers {

  datatype Option<+T> = None | Some(value: T)

  datatype Result<+R, +E> = Success(value: R) | Failure(error: E)
}
